=== FILE: README.md ===
# BatchFlow workflow core in Dafny

BatchFlow tracks beverage batches across four workflow stages: Rotation, On Deck, Fermenting and
Finishing. Its `BatchManager` (in `src/batchflow_logic.py`) does three things besides the GUI
wiring. This project models each of them as pure functions over immutable data:

- **Library merge** (`load_library`). The local, lite and monitor beverage catalogs are folded
  into one dictionary keyed by `id`. A later source overwrites an earlier one, and each stored
  record is tagged with its source. A display list is sorted by `name`.
- **Workflow board**. Four ordered columns hold batch ids, alongside a titles map, a
  collapsed-states map and the source settings. The operations are `move_batch_drag`,
  `add_batch`, `remove_batch`, `rename_column` and `set_column_state`. Column names are resolved
  by `_get_list_by_name`.
- **Settings persistence** (`load_workflow`, `_set_defaults`, `save_workflow`). Load falls back
  to fixed defaults. Save is read-merge-write over a JSON object.

Modules:

- `Wrappers` (`wrappers.dfy`): `Option`.
- `StrOrder` (`str_order.dfy`): Python's `<` on strings (code point lexicographic). It is proved
  to be a strict order whose complement is a total preorder.
- `Library` (`library.dfy`): records, the insertion-ordered dictionary, the last-writer-wins
  fold, the stable sort by name, and `LoadLibrary`.
- `Workflow` (`workflow.dfy`): the board and its operations. Each operation returns a `Step`:
  the new board, plus whether `save_workflow` was called. For `move_batch_drag`, that flag is
  also the method's boolean result.
- `Settings` (`settings.dfy`): the JSON value type, the defaults, `Load`, and `Save`.
- `Manager` (`manager.dfy`): the whole manager state (board, library, settings file content).
  It proves that, with the corrected save (`Settings.Save`, see "## Findings"), reloading the
  settings file from start-up on always yields the board held in memory.

Modelling choices:

- A catalog file is an input: the records `merge_file` reaches. A missing or unreadable file
  gives no records. `has_lite` and `has_monitor` are the file-existence probes.
- The settings file is an `Option<Json>`. `None` means absent or unparseable.
- Python's dict keeps insertion order, and an overwrite keeps the key's old position. This
  order is modelled (`Library.Put`) because it is observable. The name sort is stable, and
  `add_batch` takes the *first* record with a given name, so ties between equal names follow
  it.
- `use_local` is stored (src/batchflow_logic.py:34, 114) but never read: the local catalog is
  always merged (src/batchflow_logic.py:95-96).
- `rename_column` and `set_column_state` accept any key already in the titles map
  (respectively, the states map) and store the value as given
  (src/batchflow_logic.py:168-176).

## Model

| member | source | states |
|---|---|---|
| `Library.Put` | src/batchflow_logic.py:91 | Assigning into the dictionary keeps an existing key's position and appends a new key. The map view becomes the old map updated at that key. |
| `Library.FoldMap` | src/batchflow_logic.py:88-91 | Folding records into a dictionary yields the old contents overridden by the last record of each id in the records. Records without an id are dropped. |
| `Library.SortByName` | src/batchflow_logic.py:107 | The display order is a permutation of its input and is non-decreasing by `name` (missing counts as `''`). It is stable: for every name, the records with that name keep their input order. |
| `Library.LoadLibrary` | src/batchflow_logic.py:64-108 | The availability flags are the file-existence probes, whatever the settings say. The stored map is the last-writer-wins merge of local, then lite, then monitor records, each source taking part under `get(flag, False)` and its probe. Its keys are exactly the ids of those records, and it is the map view of the merge dictionary. The display list is sorted by name and is a permutation of the dictionary's values. |
| `Library.MergedIsLastWriter` | src/batchflow_logic.py:82-104 | The merged dictionary is one last-writer-wins pass over the local records, then the lite records when they take part, then the monitor records: each id maps to the last record carrying it. |
| `Library.MergedKeys` | src/batchflow_logic.py:82-104 | The merged key set is the ids of local, plus those of lite when `use_lite` and the file exists, plus those of monitor likewise. A missing setting counts as false. |
| `Library.LibraryWinner` | src/batchflow_logic.py:82-104 | Each id maps to the last record carrying it in the last contributing source, in the order local, lite, monitor. That record's `_source` is that source. |
| `Library.LibraryList` | src/batchflow_logic.py:106-107 | The display list holds each merged record exactly once, has the same size as the map, is sorted by name, and keeps dictionary order among equal names. |
| `Workflow.ColumnNamed` | src/batchflow_logic.py:212-217 | Exactly the four names `rotation`, `deck`, `fermenting` and `finishing` resolve, each to its own column. Any other name resolves to nothing. |
| `Workflow.RemoveFirst` | src/batchflow_logic.py:195 | `list.remove` drops exactly the first occurrence: the result is the list before that index followed by the list after it. |
| `Workflow.RemoveFirstCounts` | src/batchflow_logic.py:195 | Removing an id shortens the column by one and removes exactly one copy of the id from its multiset. |
| `Workflow.MoveBatchDrag` | src/batchflow_logic.py:198-210 | Returns true iff both names resolve and the id is in the source column. On false, the board is unchanged. On true, the id is removed from the source and sits at the clamped index of the destination; deleting it there gives the destination as it was after the removal. The other columns and the metadata are unchanged. |
| `Workflow.MoveKeepsBatches` | src/batchflow_logic.py:203-207 | A move keeps the multiset of ids across all four columns. |
| `Workflow.MoveWithinColumnReorders` | src/batchflow_logic.py:203-207 | A move within one column keeps that column's length and multiset: a pure reorder. |
| `Workflow.MoveRoundTrip` | src/batchflow_logic.py:198-210 | Moving an id to another column that lacked it, then back to its original first-occurrence index, succeeds both times and restores the board exactly. |
| `Workflow.FirstNamed` | src/batchflow_logic.py:179-182 | Finds the first record whose `name` equals the argument, or reports that none does. A record without a name never matches. |
| `Workflow.AddBatch` | src/batchflow_logic.py:178-190 | If the first name match has a non-empty id and the column resolves, that id is prepended to the column and nothing else changes. Otherwise the columns are unchanged. A save happens iff such an id was found, even for an unknown column. |
| `Workflow.RemoveBatch` | src/batchflow_logic.py:192-196 | If the column resolves and holds the id, its first occurrence is removed, the other columns and the metadata are unchanged, and the board is saved. Otherwise nothing changes and nothing is saved. |
| `Workflow.RenameColumn` | src/batchflow_logic.py:168-171 | The title changes only when the key is already in the titles map. Every other entry, the key set, the columns, the states and the settings are unchanged. A save happens iff the key was present. |
| `Workflow.SetColumnState` | src/batchflow_logic.py:173-176 | The collapsed flag changes only when the key is already in the states map. Every other entry and all other fields are unchanged. A save happens iff the key was present. |
| `Settings.Load` | src/batchflow_logic.py:110-140 | An absent or unparseable file, a non-object document, or a badly shaped value yields exactly the defaults. |
| `Settings.MissingColumnIsEmpty` | src/batchflow_logic.py:120-123 | In a readable file, a missing `columns` key or a missing per-column key yields an empty column. |
| `Settings.MissingMetadataIsDefault` | src/batchflow_logic.py:125-127 | A missing `titles`, `states` or `library_sources` key yields the default titles, all-expanded states and all-enabled sources. |
| `Settings.Save` | src/batchflow_logic.py:142-166 | The saved document is an object holding every key of the previous object. `columns`, `titles`, `states` and `library_sources` are overwritten; every other key keeps its value. |
| `Settings.SaveAsWritten` | src/batchflow_logic.py:142-160 | Save as written raises exactly when the current file parses to a non-object. Otherwise the document is an object holding every previous key plus the four owned ones, and every other key keeps its value. An absent or unreadable file counts as `{}`. |
| `Settings.SaveLoadRoundTrip` | src/batchflow_logic.py:110-160 | Loading after a save restores the same four columns, titles, states and source settings, whatever the file held before. |
| `Settings.SaveIdempotent` | src/batchflow_logic.py:142-160 | Saving the same board twice writes the same document as saving it once. |
| `Settings.SaveAsWrittenRaisesOnNonObject` | src/batchflow_logic.py:143-151 | As written, save fails exactly when the current file parses to a non-object, and agrees with `Save` everywhere else. A file holding `[]` fails, although loading that file gives the defaults. |
| `Manager.Start` | src/batchflow_logic.py:43-51 | Start-up loads the board from the file, then builds the library under the source settings just loaded. The file is only read and reloads to the board. Every local id is in the library. |
| `Manager.Apply` | src/batchflow_logic.py:168-210 | The board becomes the operation's result. The file becomes that board saved over the old content (with the corrected save, `Settings.Save`) exactly when the operation saves, and stays as it was otherwise. A file that reloaded to the board still does, the library is untouched, and top-level keys outside the four owned ones keep their values. |
| `Manager.ApplyAll` | src/batchflow_logic.py:168-210 | With the corrected save (`Settings.Save`): starting from a state whose file reloads to its board, any sequence of operations, each followed by the save it makes, ends in such a state. The library is never touched. |
| `Manager.AlwaysSynced` | src/batchflow_logic.py:43-51 | With the corrected save (`Settings.Save`): after start-up and any sequence of operations, reloading the settings file gives back the board in memory, and the library is still the one loaded at start-up under the loaded source settings. |

## Left out

- Filesystem and JSON text are not modelled: `_find_data_dir`, `os.path.exists`, `open`, `json.load`, `json.dump` and the three catalog paths. File contents and existence are inputs; a failed read is `None` or an empty record list.
- A failed write of the settings file is not modelled. It is caught and printed, and the model's file content is what would have been written.
- Kivy `ListProperty`/`DictProperty`/`BooleanProperty` and `EventDispatcher` binding (`src/batchflow_logic.py:3-41`) are plain fields here. Logging `print`s are left out.
- Everything in `src/batchflow_main.py` is left out. This includes the source toggle, which sets `source_settings[key]`, saves, then reloads the library (`src/batchflow_main.py:150-154`). Also left out: drag handling and drop-index computation, popups, title truncation, window geometry, and the signal handler.
- Library.Beverage: `id` and `name` are strings or absent, and other fields are strings. A catalog element that is not an object is not modelled as such. When `'id' in b` is false for it (a string without the substring `id`, or a list without an `"id"` item), it is skipped silently and later records still merge (src/batchflow_logic.py:89). Otherwise (a number, `null`, a boolean, or a string or list that contains `id`) it raises inside `merge_file`, after the earlier records were merged. In both cases the model's input is the records that actually get merged. A `name` that is present but not a string (JSON `null` or a number) is not representable either. Once the sort at src/batchflow_logic.py:107 compares such a key with another record's key, it raises `TypeError`. That line is outside `merge_file`'s `try` (84-93), so the error escapes `load_library` and the constructor (43-51); the model has no such error path.
- Workflow.MoveBatchDrag: the default `target_index=0` (src/batchflow_logic.py:198) is not modelled; the index is always passed explicitly.
- Manager.Apply: the synchronisation is proved only with the corrected save. As written, a settings file holding `[]` makes the first saving operation raise after the board in memory has already changed (src/batchflow_logic.py:151, 170, 175, 186-189, 195, 204-207), so the file no longer reloads to the board. `Settings.SaveAsWritten` models that path.
- Settings.Load: some badly typed values load as exactly the defaults in the model, whereas the code may keep a converted value. The columns and the three metadata maps are assigned one after another inside the `try` (src/batchflow_logic.py:120-127), and only an exception there leads to `_set_defaults`. The model treats each of the following as a failed load, although the code raises for none of them on its own: a column list with non-string items; a titles/states/sources object with values of another JSON type; a JSON string or object under a column key; and `[]` under `titles`, `states` or `library_sources`. The Kivy `ListProperty`/`DictProperty` setters decide the outcome of the last two, and they are not part of this model. If they convert with `list()`/`dict()`, a string column loads as its characters, an object column as its keys, and `[]` as `{}`. Only a value they cannot convert (a number, a boolean, `null`) raises into the `except`. A `columns` value that is not an object makes `.get` raise at lines 120-123 whatever Kivy does, and the model gives the defaults there, as the code does.
- Settings.Json: JSON numbers are integers. The settings file this core reads and writes holds no numbers of its own; the window geometry lives in a separate file written by `src/batchflow_main.py`.
- Library.SortByName: this is an insertion sort, not Python's Timsort. Both produce a stable sort on a total preorder, and that output is unique, so the results agree. The uniqueness itself is not proved.

## Findings

| source | as written | input that shows it | evidently intended | confidence | as-written member | corrected member |
|---|---|---|---|---|---|---|
| src/batchflow_logic.py:143-160 | `save_workflow` catches a failed read, but assigns the four keys into whatever `json.load` returned outside any `try`. A settings file that parses to a list, string or number therefore makes the save raise `TypeError` out of `rename_column`, `add_batch` and the other operations. Meanwhile `load_workflow` treats the same file as unreadable and uses the defaults. | a settings file containing `[]` | treat a non-object document like an unreadable one and start from `{}` | medium; not executed | `Settings.SaveAsWritten`, exhibited by `Settings.SaveAsWrittenRaisesOnNonObject` | `Settings.Save`, with `Settings.SaveLoadRoundTrip` and `Manager.AlwaysSynced` |

=== FILE: library.dfy ===
/** The beverage library: three catalogs (local, lite, monitor) folded into one table keyed by
    `id`, later sources overriding earlier ones, plus a display list sorted by `name`. */
module Library {
  import opened Wrappers
  import StrOrder

  /** The catalog a record was read from; stored in the record's `_source` field. */
  datatype Source = Local | Lite | Monitor

  /** One catalog record. `id` and `name` are absent when the JSON object lacks the key;
      `details` holds the remaining string fields (`bjcp`, `abv`, `ibu`, ...). */
  datatype Beverage = Beverage(
    id: Option<string>,
    name: Option<string>,
    details: map<string, string>,
    source: Option<Source>)

  /** The sort key `x.get('name', '')`. */
  function NameKey(b: Beverage): string {
    b.name.GetOr("")
  }

  /** `b['_source'] = tag`. */
  function Tag(b: Beverage, src: Source): Beverage {
    b.(source := Some(src))
  }

  function TagAll(recs: seq<Beverage>, src: Source): seq<Beverage> {
    seq(|recs|, i requires 0 <= i < |recs| => Tag(recs[i], src))
  }

  // ---------------------------------------------------------------------------------------
  // An insertion-ordered dictionary from id to record (Python's `dict`).
  // ---------------------------------------------------------------------------------------

  datatype Entry = Entry(key: string, value: Beverage)

  type Table = seq<Entry>

  function Keys(t: Table): seq<string>
    decreases |t|
  {
    if |t| == 0 then [] else [t[0].key] + Keys(t[1..])
  }

  function Values(t: Table): seq<Beverage>
    decreases |t|
  {
    if |t| == 0 then [] else [t[0].value] + Values(t[1..])
  }

  /** Keys are distinct and every stored record carries its own key as `id`. */
  predicate WellKeyed(t: Table)
    decreases |t|
  {
    |t| == 0 ||
    (t[0].key !in Keys(t[1..]) && t[0].value.id == Some(t[0].key) && WellKeyed(t[1..]))
  }

  /** The dictionary as a plain map (the source's `beverage_map`). */
  function ToMap(t: Table): map<string, Beverage>
    decreases |t|
  {
    if |t| == 0 then map[] else ToMap(t[1..])[t[0].key := t[0].value]
  }

  /** `d[k] = v`: an existing key keeps its position and takes the new value, a new key is
      appended at the end. */
  function Put(t: Table, k: string, v: Beverage): (r: Table)
    ensures k in Keys(t) ==> Keys(r) == Keys(t)
    ensures k !in Keys(t) ==> Keys(r) == Keys(t) + [k]
    ensures ToMap(r) == ToMap(t)[k := v]
    decreases |t|
  {
    if |t| == 0 then [Entry(k, v)]
    else if t[0].key == k then
      assert ([Entry(k, v)] + t[1..])[1..] == t[1..];
      [Entry(k, v)] + t[1..]
    else
      var rest := Put(t[1..], k, v);
      assert ([t[0]] + rest)[1..] == rest;
      [t[0]] + rest
  }

  lemma {:induction false} PutWellKeyed(t: Table, k: string, v: Beverage)
    requires WellKeyed(t) && v.id == Some(k)
    ensures WellKeyed(Put(t, k, v))
    decreases |t|
  {
    if |t| > 0 && t[0].key != k {
      PutWellKeyed(t[1..], k, v);
      var rest := Put(t[1..], k, v);
      assert ([t[0]] + rest)[1..] == rest;
    }
  }

  /** The loop `for b in bevs: if 'id' in b: d[b['id']] = b` over already tagged records. */
  function Fold(t: Table, xs: seq<Beverage>): Table
    decreases |xs|
  {
    if |xs| == 0 then t
    else Fold(if xs[0].id.Some? then Put(t, xs[0].id.value, xs[0]) else t, xs[1..])
  }

  /** The index of the last record in `xs` whose id is `k`. */
  function LastWith(xs: seq<Beverage>, k: string): (r: Option<nat>)
    ensures r.Some? ==> r.value < |xs| && xs[r.value].id == Some(k)
    ensures r.Some? ==> forall j :: r.value < j < |xs| ==> xs[j].id != Some(k)
    ensures r.None? ==> forall j :: 0 <= j < |xs| ==> xs[j].id != Some(k)
    decreases |xs|
  {
    if |xs| == 0 then None
    else
      var rest := LastWith(xs[1..], k);
      if rest.Some? then Some(rest.value + 1)
      else if xs[0].id == Some(k) then Some(0)
      else None
  }

  /** The single-key map a record contributes: its id, or nothing when it has none. */
  function Single(b: Beverage): map<string, Beverage> {
    if b.id.Some? then map[b.id.value := b] else map[]
  }

  /** What a last-writer-wins fold over `xs` stores: each id seen, with its last record. */
  function Latest(xs: seq<Beverage>): map<string, Beverage>
    decreases |xs|
  {
    if |xs| == 0 then map[] else Single(xs[0]) + Latest(xs[1..])
  }

  lemma {:induction false} LatestAt(xs: seq<Beverage>, k: string)
    ensures k in Latest(xs) <==> LastWith(xs, k).Some?
    ensures k in Latest(xs) ==> Latest(xs)[k] == xs[LastWith(xs, k).value]
    decreases |xs|
  {
    if |xs| > 0 {
      LatestAt(xs[1..], k);
    }
  }

  /** The set of ids carried by the records of `recs`. */
  function IdSet(recs: seq<Beverage>): set<string> {
    set i | 0 <= i < |recs| && recs[i].id.Some? :: recs[i].id.value
  }

  lemma LatestKeys(xs: seq<Beverage>)
    ensures Latest(xs).Keys == IdSet(xs)
  {
    forall k | k in IdSet(xs) ensures k in Latest(xs) {
      var i :| 0 <= i < |xs| && xs[i].id == Some(k);
      LatestAt(xs, k);
    }
    forall k | k in Latest(xs) ensures k in IdSet(xs) {
      LatestAt(xs, k);
    }
  }

  lemma MapUnionAssoc(a: map<string, Beverage>, b: map<string, Beverage>, c: map<string, Beverage>)
    ensures (a + b) + c == a + (b + c)
  {
  }

  lemma {:induction false} LatestAppend(a: seq<Beverage>, b: seq<Beverage>)
    ensures Latest(a + b) == Latest(a) + Latest(b)
    decreases |a|
  {
    if |a| > 0 {
      assert (a + b)[1..] == a[1..] + b;
      LatestAppend(a[1..], b);
      MapUnionAssoc(Single(a[0]), Latest(a[1..]), Latest(b));
    } else {
      assert a + b == b;
    }
  }

  lemma {:induction false} LastWithTagged(recs: seq<Beverage>, src: Source, k: string)
    ensures LastWith(TagAll(recs, src), k) == LastWith(recs, k)
    decreases |recs|
  {
    if |recs| > 0 {
      assert TagAll(recs, src)[1..] == TagAll(recs[1..], src);
      LastWithTagged(recs[1..], src, k);
    }
  }

  /** Tagging keeps the ids and only stamps the surviving records with their source. */
  lemma LatestTagged(recs: seq<Beverage>, src: Source, k: string)
    ensures k in Latest(TagAll(recs, src)) <==> k in Latest(recs)
    ensures k in Latest(recs) ==> Latest(TagAll(recs, src))[k] == Tag(Latest(recs)[k], src)
  {
    LastWithTagged(recs, src, k);
    LatestAt(recs, k);
    LatestAt(TagAll(recs, src), k);
  }

  /** Folding records into a dictionary overrides its old contents with the last record of each
      id, whatever the dictionary held before. */
  lemma {:induction false} FoldMap(t: Table, xs: seq<Beverage>)
    ensures ToMap(Fold(t, xs)) == ToMap(t) + Latest(xs)
    decreases |xs|
  {
    if |xs| > 0 {
      var t' := if xs[0].id.Some? then Put(t, xs[0].id.value, xs[0]) else t;
      assert ToMap(t') == ToMap(t) + Single(xs[0]);
      FoldMap(t', xs[1..]);
      MapUnionAssoc(ToMap(t), Single(xs[0]), Latest(xs[1..]));
    }
  }

  lemma {:induction false} FoldWellKeyed(t: Table, xs: seq<Beverage>)
    requires WellKeyed(t)
    ensures WellKeyed(Fold(t, xs))
    decreases |xs|
  {
    if |xs| > 0 {
      if xs[0].id.Some? {
        PutWellKeyed(t, xs[0].id.value, xs[0]);
      }
      var t' := if xs[0].id.Some? then Put(t, xs[0].id.value, xs[0]) else t;
      FoldWellKeyed(t', xs[1..]);
    }
  }

  /** On a well-keyed table the stored values and the map's values correspond one to one. */
  lemma {:induction false} ToMapOfWellKeyed(t: Table)
    requires WellKeyed(t)
    ensures |ToMap(t)| == |Values(t)|
    ensures forall b :: b in Values(t) ==> b.id.Some? && b.id.value in ToMap(t) && ToMap(t)[b.id.value] == b
    ensures forall k :: k in ToMap(t) ==> ToMap(t)[k] in Values(t)
    ensures ToMap(t).Keys == set k | k in Keys(t)
    decreases |t|
  {
    if |t| > 0 {
      ToMapOfWellKeyed(t[1..]);
      assert t[0].key !in ToMap(t[1..]);
    }
  }

  // ---------------------------------------------------------------------------------------
  // Stable sort by name (Python's `sorted(..., key=lambda x: x.get('name', ''))`).
  // ---------------------------------------------------------------------------------------

  ghost predicate SortedByName(s: seq<Beverage>) {
    forall i, j :: 0 <= i < j < |s| ==> StrOrder.LessEq(NameKey(s[i]), NameKey(s[j]))
  }

  /** The records of `s` whose sort key is `n`, in their order in `s`. */
  function WithName(s: seq<Beverage>, n: string): seq<Beverage>
    decreases |s|
  {
    if |s| == 0 then []
    else (if NameKey(s[0]) == n then [s[0]] else []) + WithName(s[1..], n)
  }

  /** Places `x` in front of the first record whose key is not smaller than its own. */
  function InsertByName(x: Beverage, s: seq<Beverage>): seq<Beverage>
    decreases |s|
  {
    if |s| == 0 then [x]
    else if StrOrder.LessEq(NameKey(x), NameKey(s[0])) then [x] + s
    else [s[0]] + InsertByName(x, s[1..])
  }

  lemma {:induction false} InsertPermutes(x: Beverage, s: seq<Beverage>)
    ensures multiset(InsertByName(x, s)) == multiset(s) + multiset{x}
    decreases |s|
  {
    if |s| > 0 && !StrOrder.LessEq(NameKey(x), NameKey(s[0])) {
      InsertPermutes(x, s[1..]);
      assert s == [s[0]] + s[1..];
    }
  }

  /** Every element of the result is `x` or comes from `s`. */
  lemma InsertMembers(x: Beverage, s: seq<Beverage>, y: Beverage)
    requires y in InsertByName(x, s)
    ensures y == x || y in s
  {
    InsertPermutes(x, s);
    assert y in multiset(InsertByName(x, s));
  }

  lemma {:induction false} InsertSorted(x: Beverage, s: seq<Beverage>)
    requires SortedByName(s)
    ensures SortedByName(InsertByName(x, s))
    decreases |s|
  {
    if |s| == 0 {
    } else if StrOrder.LessEq(NameKey(x), NameKey(s[0])) {
      var r := [x] + s;
      forall i, j | 0 <= i < j < |r| ensures StrOrder.LessEq(NameKey(r[i]), NameKey(r[j])) {
        if i == 0 && j > 1 {
          assert r[j] == s[j - 1];
          StrOrder.LessEqTransitive(NameKey(x), NameKey(s[0]), NameKey(r[j]));
        } else if i > 0 {
          assert r[i] == s[i - 1] && r[j] == s[j - 1];
        }
      }
    } else {
      InsertSorted(x, s[1..]);
      var tail := InsertByName(x, s[1..]);
      var r := [s[0]] + tail;
      StrOrder.LessEqTotal(NameKey(x), NameKey(s[0]));
      forall i, j | 0 <= i < j < |r| ensures StrOrder.LessEq(NameKey(r[i]), NameKey(r[j])) {
        if i == 0 {
          assert r[j] == tail[j - 1];
          InsertMembers(x, s[1..], r[j]);
          if r[j] != x {
            var m :| 0 <= m < |s[1..]| && s[1..][m] == r[j];
            assert s[m + 1] == r[j];
          }
        } else {
          assert r[i] == tail[i - 1] && r[j] == tail[j - 1];
        }
      }
    }
  }

  lemma {:induction false} InsertStable(x: Beverage, s: seq<Beverage>, n: string)
    ensures WithName(InsertByName(x, s), n) == (if NameKey(x) == n then [x] else []) + WithName(s, n)
    decreases |s|
  {
    if |s| == 0 {
    } else if StrOrder.LessEq(NameKey(x), NameKey(s[0])) {
      assert ([x] + s)[1..] == s;
    } else {
      InsertStable(x, s[1..], n);
      var tail := InsertByName(x, s[1..]);
      assert ([s[0]] + tail)[1..] == tail;
      StrOrder.LessIrreflexive(NameKey(x));
      assert NameKey(x) == n ==> NameKey(s[0]) != n;
    }
  }

  /** Insertion sort on the name key: the stable ascending order Python's `sorted` yields. */
  function SortByName(s: seq<Beverage>): (r: seq<Beverage>)
    ensures multiset(r) == multiset(s)
    ensures SortedByName(r)
    ensures forall n :: WithName(r, n) == WithName(s, n)
    decreases |s|
  {
    if |s| == 0 then []
    else
      var rest := SortByName(s[1..]);
      assert s == [s[0]] + s[1..];
      InsertPermutes(s[0], rest);
      InsertSorted(s[0], rest);
      assert forall n :: WithName(InsertByName(s[0], rest), n) == WithName(s, n) by {
        forall n ensures WithName(InsertByName(s[0], rest), n) == WithName(s, n) {
          InsertStable(s[0], rest, n);
        }
      }
      InsertByName(s[0], rest)
  }

  // ---------------------------------------------------------------------------------------
  // load_library
  // ---------------------------------------------------------------------------------------

  /** The three catalog files as read: a file that is missing or unreadable yields no records.
      `hasLite` / `hasMonitor` are the existence probes of the two external files. */
  datatype Catalogs = Catalogs(
    local: seq<Beverage>,
    lite: seq<Beverage>,
    monitor: seq<Beverage>,
    hasLite: bool,
    hasMonitor: bool)

  /** `entries` is the merge dictionary in insertion order, `byId` is `beverage_map`,
      `list` is `all_beverages_list`. */
  datatype Library = Library(
    entries: Table,
    byId: map<string, Beverage>,
    list: seq<Beverage>,
    hasLite: bool,
    hasMonitor: bool)

  /** `settings.get(key, False)`. */
  function Flag(settings: map<string, bool>, key: string): bool {
    key in settings && settings[key]
  }

  predicate UsesLite(settings: map<string, bool>, cat: Catalogs) {
    Flag(settings, "use_lite") && cat.hasLite
  }

  predicate UsesMonitor(settings: map<string, bool>, cat: Catalogs) {
    Flag(settings, "use_monitor") && cat.hasMonitor
  }

  /** The merge dictionary `temp_map` after `merge_file` has run on each contributing source:
      the local file always, whatever `use_local` says; lite and monitor when enabled and
      present, in that order. */
  function Merged(settings: map<string, bool>, cat: Catalogs): Table {
    var t0 := Fold([], TagAll(cat.local, Local));
    var t1 := if UsesLite(settings, cat) then Fold(t0, TagAll(cat.lite, Lite)) else t0;
    if UsesMonitor(settings, cat) then Fold(t1, TagAll(cat.monitor, Monitor)) else t1
  }

  /** The records that reach the merge, tagged, in merge order. */
  function Contributions(settings: map<string, bool>, cat: Catalogs): seq<Beverage> {
    TagAll(cat.local, Local)
    + (if UsesLite(settings, cat) then TagAll(cat.lite, Lite) else [])
    + (if UsesMonitor(settings, cat) then TagAll(cat.monitor, Monitor) else [])
  }

  lemma MergedIsLatest(settings: map<string, bool>, cat: Catalogs)
    ensures ToMap(Merged(settings, cat)) ==
      Latest(TagAll(cat.local, Local))
      + (if UsesLite(settings, cat) then Latest(TagAll(cat.lite, Lite)) else map[])
      + (if UsesMonitor(settings, cat) then Latest(TagAll(cat.monitor, Monitor)) else map[])
  {
    var a := TagAll(cat.local, Local);
    var t0 := Fold([], a);
    var t1 := if UsesLite(settings, cat) then Fold(t0, TagAll(cat.lite, Lite)) else t0;
    FoldMap([], a);
    assert ToMap(t0) == Latest(a);
    if UsesLite(settings, cat) {
      FoldMap(t0, TagAll(cat.lite, Lite));
    }
    if UsesMonitor(settings, cat) {
      FoldMap(t1, TagAll(cat.monitor, Monitor));
    }
  }

  /** The merge is one last-writer-wins pass over every contributing record, in merge order:
      each id maps to the last record carrying it. */
  lemma MergedIsLastWriter(settings: map<string, bool>, cat: Catalogs)
    ensures ToMap(Merged(settings, cat)) == Latest(Contributions(settings, cat))
  {
    var a := TagAll(cat.local, Local);
    var l := if UsesLite(settings, cat) then TagAll(cat.lite, Lite) else [];
    var m := if UsesMonitor(settings, cat) then TagAll(cat.monitor, Monitor) else [];
    MergedIsLatest(settings, cat);
    LatestAppend(a, l);
    LatestAppend(a + l, m);
    assert Latest(l) == (if UsesLite(settings, cat) then Latest(TagAll(cat.lite, Lite)) else map[]);
    assert Latest(m) == (if UsesMonitor(settings, cat) then Latest(TagAll(cat.monitor, Monitor)) else map[]);
  }

  /** The merged key set: every id of the local catalog, plus those of lite and monitor when
      they take part; records without an `id` are dropped. */
  lemma MergedKeys(settings: map<string, bool>, cat: Catalogs)
    ensures ToMap(Merged(settings, cat)).Keys ==
      IdSet(cat.local)
      + (if UsesLite(settings, cat) then IdSet(cat.lite) else {})
      + (if UsesMonitor(settings, cat) then IdSet(cat.monitor) else {})
  {
    MergedIsLatest(settings, cat);
    LatestKeys(cat.local);
    LatestKeys(cat.lite);
    LatestKeys(cat.monitor);
    var byId := ToMap(Merged(settings, cat));
    var expected := IdSet(cat.local)
      + (if UsesLite(settings, cat) then IdSet(cat.lite) else {})
      + (if UsesMonitor(settings, cat) then IdSet(cat.monitor) else {});
    forall k ensures k in byId <==> k in expected {
      LatestTagged(cat.local, Local, k);
      LatestTagged(cat.lite, Lite, k);
      LatestTagged(cat.monitor, Monitor, k);
    }
  }

  /** `load_library`: the availability flags are the existence probes; `beverage_map` is the
      last-writer-wins merge of the contributing records, keyed by exactly their ids; the
      display list is those records sorted by name. */
  function LoadLibrary(settings: map<string, bool>, cat: Catalogs): (lib: Library)
    ensures lib.hasLite == cat.hasLite && lib.hasMonitor == cat.hasMonitor
    ensures lib.byId == ToMap(lib.entries)
    ensures lib.byId == Latest(Contributions(settings, cat))
    ensures lib.byId.Keys ==
      IdSet(cat.local)
      + (if UsesLite(settings, cat) then IdSet(cat.lite) else {})
      + (if UsesMonitor(settings, cat) then IdSet(cat.monitor) else {})
    ensures SortedByName(lib.list) && multiset(lib.list) == multiset(Values(lib.entries))
  {
    var t := Merged(settings, cat);
    MergedIsLastWriter(settings, cat);
    MergedKeys(settings, cat);
    Library(t, ToMap(t), SortByName(Values(t)), cat.hasLite, cat.hasMonitor)
  }

  /** Precedence: an id maps to the last record carrying it in the last source that has it,
      in the order local, lite, monitor, and that record is tagged with that source. */
  lemma LibraryWinner(settings: map<string, bool>, cat: Catalogs, k: string)
    requires k in LoadLibrary(settings, cat).byId
    ensures var w := LoadLibrary(settings, cat).byId[k];
      if UsesMonitor(settings, cat) && LastWith(cat.monitor, k).Some? then
        w == Tag(cat.monitor[LastWith(cat.monitor, k).value], Monitor)
      else if UsesLite(settings, cat) && LastWith(cat.lite, k).Some? then
        w == Tag(cat.lite[LastWith(cat.lite, k).value], Lite)
      else
        LastWith(cat.local, k).Some? && w == Tag(cat.local[LastWith(cat.local, k).value], Local)
  {
    MergedIsLatest(settings, cat);
    LatestTagged(cat.local, Local, k);
    LatestTagged(cat.lite, Lite, k);
    LatestTagged(cat.monitor, Monitor, k);
    LatestAt(cat.local, k);
    LatestAt(cat.lite, k);
    LatestAt(cat.monitor, k);
  }

  /** The display list holds exactly the merged records, each once, sorted by name, records
      with equal names keeping their order of first insertion into the dictionary. */
  lemma LibraryList(settings: map<string, bool>, cat: Catalogs)
    ensures var lib := LoadLibrary(settings, cat);
      && SortedByName(lib.list)
      && multiset(lib.list) == multiset(Values(lib.entries))
      && (forall n :: WithName(lib.list, n) == WithName(Values(lib.entries), n))
      && |lib.list| == |lib.byId|
      && (forall b :: b in lib.list ==> b.id.Some? && b.id.value in lib.byId && lib.byId[b.id.value] == b)
      && (forall k :: k in lib.byId ==> lib.byId[k] in lib.list)
  {
    var lib := LoadLibrary(settings, cat);
    assert lib.entries == Merged(settings, cat);
    var t0 := Fold([], TagAll(cat.local, Local));
    var t1 := if UsesLite(settings, cat) then Fold(t0, TagAll(cat.lite, Lite)) else t0;
    FoldWellKeyed([], TagAll(cat.local, Local));
    if UsesLite(settings, cat) { FoldWellKeyed(t0, TagAll(cat.lite, Lite)); }
    if UsesMonitor(settings, cat) { FoldWellKeyed(t1, TagAll(cat.monitor, Monitor)); }
    var t := lib.entries;
    ToMapOfWellKeyed(t);
    assert |lib.list| == |Values(t)| by {
      assert |multiset(lib.list)| == |multiset(Values(t))|;
    }
    forall b | b in lib.list ensures b in Values(t) {
      assert b in multiset(lib.list);
    }
    forall k | k in lib.byId ensures lib.byId[k] in lib.list {
      assert lib.byId[k] in multiset(Values(t));
    }
  }
}

=== FILE: manager.dfy ===
/** The whole `BatchManager` outside the GUI: the board, the merged library and the settings file,
    with every user operation followed, when it changes anything, by a save. */
module Manager {
  import opened Wrappers
  import Library
  import opened Workflow
  import Settings

  /** `file` is the settings file's content (`None` when absent or unparseable). */
  datatype State = State(board: Board, library: Library.Library, file: Option<Settings.Json>)

  /** The file on disk reloads to exactly the board held in memory. */
  predicate Synced(m: State) {
    Settings.Load(m.file) == m.board
  }

  /** The constructor: `load_workflow`, then `load_library` under the source settings just loaded.
      The file is only read. */
  function Start(file: Option<Settings.Json>, cat: Library.Catalogs): (m: State)
    ensures m.board == Settings.Load(file)
    ensures m.library == Library.LoadLibrary(m.board.sources, cat)
    ensures Synced(m)
    ensures m.file == file
    ensures m.library.byId.Keys >= Library.IdSet(cat.local)
  {
    var b := Settings.Load(file);
    State(b, Library.LoadLibrary(b.sources, cat), file)
  }

  /** The operations the GUI calls. */
  datatype Op =
    | Rename(key: string, title: string)
    | SetState(key: string, collapsed: bool)
    | Add(name: string, target: string)
    | Remove(id: string, listName: string)
    | Move(id: string, src: string, dst: string, index: int)

  function Perform(b: Board, lib: Library.Library, op: Op): (r: Step)
    ensures !r.saved ==> r.board == b
  {
    match op
    case Rename(key, title) => RenameColumn(b, key, title)
    case SetState(key, collapsed) => SetColumnState(b, key, collapsed)
    case Add(name, target) => AddBatch(b, lib.list, name, target)
    case Remove(id, listName) => RemoveBatch(b, id, listName)
    case Move(id, src, dst, index) => MoveBatchDrag(b, id, src, dst, index)
  }

  /** One operation, with its `save_workflow` when it makes one. Every change to the board
      reaches the file, so a synced state stays synced; keys of the file the board does not own
      survive; the library is untouched. */
  function Apply(m: State, op: Op): (r: State)
    ensures r.board == Perform(m.board, m.library, op).board
    ensures r.file == (if Perform(m.board, m.library, op).saved
                       then Some(Settings.Save(m.file, r.board)) else m.file)
    ensures Synced(m) ==> Synced(r)
    ensures r.library == m.library
    ensures m.file.Some? && m.file.value.JObj? ==>
      r.file.Some? && r.file.value.JObj? &&
      forall k :: k in m.file.value.fields && k !in Settings.OwnedKeys() ==>
        k in r.file.value.fields && r.file.value.fields[k] == m.file.value.fields[k]
  {
    var step := Perform(m.board, m.library, op);
    if step.saved then
      Settings.SaveLoadRoundTrip(m.file, step.board);
      State(step.board, m.library, Some(Settings.Save(m.file, step.board)))
    else
      State(m.board, m.library, m.file)
  }

  /** A session: the operations in order, each with its save. A synced state stays synced
      however many operations follow, and the library is never touched. */
  function ApplyAll(m: State, ops: seq<Op>): (r: State)
    ensures Synced(m) ==> Synced(r)
    ensures r.library == m.library
    decreases |ops|
  {
    if |ops| == 0 then m else ApplyAll(Apply(m, ops[0]), ops[1..])
  }

  /** From start-up on, after any sequence of operations, reloading the settings file gives back
      the board in memory. */
  lemma AlwaysSynced(file: Option<Settings.Json>, cat: Library.Catalogs, ops: seq<Op>)
    ensures Synced(ApplyAll(Start(file, cat), ops))
    ensures ApplyAll(Start(file, cat), ops).library == Library.LoadLibrary(Settings.Load(file).sources, cat)
  {
  }
}

=== FILE: settings.dfy ===
/** The settings file `batchflow_settings.json`: loading the board from it with fixed defaults,
    and saving the board into it by read-merge-write, which rewrites four top-level keys and
    keeps every other top-level key the file holds as it was. */
module Settings {
  import opened Wrappers
  import opened Workflow

  /** A parsed JSON document. A file that is absent or does not parse is `None` wherever a
      file's content is expected. */
  datatype Json =
    | JNull
    | JBool(b: bool)
    | JNum(n: int)
    | JStr(s: string)
    | JArr(items: seq<Json>)
    | JObj(fields: map<string, Json>)

  /** The four top-level keys `save_workflow` owns. */
  function OwnedKeys(): set<string> {
    {"columns", "titles", "states", "library_sources"}
  }

  /** The key under `columns` that holds each column's ids. */
  function FileKey(c: Column): string {
    match c
    case Rotation => "on_rotation"
    case Deck => "on_deck"
    case Fermenting => "fermenting"
    case Finishing => "lagering_or_finishing"
  }

  function DefaultTitles(): map<string, string> {
    map["rotation" := "Rotation", "deck" := "On Deck", "fermenting" := "Fermenting", "finishing" := "Finishing"]
  }

  function DefaultStates(): map<string, bool> {
    map["rotation" := false, "deck" := false, "fermenting" := false, "finishing" := false]
  }

  function DefaultSources(): map<string, bool> {
    map["use_local" := true, "use_lite" := true, "use_monitor" := true]
  }

  /** What `_set_defaults` installs: empty columns, the stock titles, every column expanded,
      every source enabled. */
  function Defaults(): Board {
    Board([], [], [], [], DefaultTitles(), DefaultStates(), DefaultSources())
  }

  // ---------------------------------------------------------------------------------------
  // Encoding and decoding of the four owned values
  // ---------------------------------------------------------------------------------------

  function EncodeIds(s: seq<string>): Json {
    JArr(seq(|s|, i requires 0 <= i < |s| => JStr(s[i])))
  }

  function DecodeIdItems(items: seq<Json>): (r: Option<seq<string>>)
    ensures r.Some? <==> forall i :: 0 <= i < |items| ==> items[i].JStr?
    ensures r.Some? ==> |r.value| == |items| && forall i :: 0 <= i < |items| ==> r.value[i] == items[i].s
    decreases |items|
  {
    if |items| == 0 then Some([])
    else if !items[0].JStr? then None
    else
      match DecodeIdItems(items[1..])
      case None => None
      case Some(rest) => Some([items[0].s] + rest)
  }

  /** A column value: a list of strings, anything else is rejected. */
  function DecodeIds(v: Json): Option<seq<string>> {
    if v.JArr? then DecodeIdItems(v.items) else None
  }

  function EncodeTitles(m: map<string, string>): Json {
    JObj(map k | k in m :: JStr(m[k]))
  }

  function DecodeTitles(v: Json): (r: Option<map<string, string>>)
    ensures r.Some? ==> v.JObj? && r.value.Keys == v.fields.Keys
    ensures r.Some? ==> forall k :: k in r.value ==> v.fields[k] == JStr(r.value[k])
  {
    if v.JObj? && forall k :: k in v.fields ==> v.fields[k].JStr? then
      Some(map k | k in v.fields :: v.fields[k].s)
    else None
  }

  function EncodeFlags(m: map<string, bool>): Json {
    JObj(map k | k in m :: JBool(m[k]))
  }

  function DecodeFlags(v: Json): (r: Option<map<string, bool>>)
    ensures r.Some? ==> v.JObj? && r.value.Keys == v.fields.Keys
    ensures r.Some? ==> forall k :: k in r.value ==> v.fields[k] == JBool(r.value[k])
  {
    if v.JObj? && forall k :: k in v.fields ==> v.fields[k].JBool? then
      Some(map k | k in v.fields :: v.fields[k].b)
    else None
  }

  lemma IdsRoundTrip(s: seq<string>)
    ensures DecodeIds(EncodeIds(s)) == Some(s)
  {
    var r := DecodeIdItems(EncodeIds(s).items);
    assert r.Some?;
    assert r.value == s;
  }

  lemma TitlesRoundTrip(m: map<string, string>)
    ensures DecodeTitles(EncodeTitles(m)) == Some(m)
  {
    var v := EncodeTitles(m);
    assert forall k :: k in v.fields ==> v.fields[k] == JStr(m[k]);
    var r := DecodeTitles(v);
    assert r.Some?;
    assert r.value == m;
  }

  lemma FlagsRoundTrip(m: map<string, bool>)
    ensures DecodeFlags(EncodeFlags(m)) == Some(m)
  {
    var v := EncodeFlags(m);
    assert forall k :: k in v.fields ==> v.fields[k] == JBool(m[k]);
    var r := DecodeFlags(v);
    assert r.Some?;
    assert r.value == m;
  }

  // ---------------------------------------------------------------------------------------
  // load_workflow
  // ---------------------------------------------------------------------------------------

  /** `data.get(key, default)` for an optional sub-value that must decode: an absent key gives
      the default, a present key that does not decode fails the whole load. */
  function Lookup<T>(fields: map<string, Json>, key: string, default: T, decode: Json -> Option<T>): Option<T> {
    if key in fields then decode(fields[key]) else Some(default)
  }

  /** One column's ids from the `columns` object; a missing key is an empty column. */
  function ColumnFrom(cols: map<string, Json>, c: Column): Option<seq<string>> {
    Lookup(cols, FileKey(c), [], DecodeIds)
  }

  /** The body of the `try` in `load_workflow`. `None` is an exception, after which every field
      takes its default. */
  function Parse(data: Json): Option<Board> {
    if !data.JObj? then None
    else
      var f := data.fields;
      var cols := if "columns" in f then f["columns"] else JObj(map[]);
      if !cols.JObj? then None
      else
        var rotation := ColumnFrom(cols.fields, Rotation);
        var deck := ColumnFrom(cols.fields, Deck);
        var fermenting := ColumnFrom(cols.fields, Fermenting);
        var finishing := ColumnFrom(cols.fields, Finishing);
        var titles := Lookup(f, "titles", DefaultTitles(), DecodeTitles);
        var states := Lookup(f, "states", DefaultStates(), DecodeFlags);
        var sources := Lookup(f, "library_sources", DefaultSources(), DecodeFlags);
        if rotation.Some? && deck.Some? && fermenting.Some? && finishing.Some?
           && titles.Some? && states.Some? && sources.Some?
        then Some(Board(rotation.value, deck.value, fermenting.value, finishing.value,
                        titles.value, states.value, sources.value))
        else None
  }

  /** `load_workflow`: the parsed file, or exactly the defaults when the file is absent, does not
      parse, or does not have the expected shape. */
  function Load(file: Option<Json>): (b: Board)
    ensures file.None? ==> b == Defaults()
    ensures file.Some? && !file.value.JObj? ==> b == Defaults()
    ensures file.Some? && Parse(file.value).None? ==> b == Defaults()
  {
    match file
    case None => Defaults()
    case Some(data) => Parse(data).GetOr(Defaults())
  }

  /** Partial files: a readable file without a `columns` key, or whose `columns` object lacks a
      column's key, loads that column as empty. */
  lemma MissingColumnIsEmpty(fields: map<string, Json>, c: Column)
    requires Parse(JObj(fields)).Some?
    requires "columns" !in fields || FileKey(c) !in fields["columns"].fields
    ensures Get(Load(Some(JObj(fields))), c) == []
  {
    var cols := if "columns" in fields then fields["columns"] else JObj(map[]);
    assert ColumnFrom(cols.fields, c) == Some([]);
  }

  /** Keys the file leaves out take their defaults: no `titles` gives the stock titles, no
      `states` leaves every column expanded, no `library_sources` enables every source. */
  lemma MissingMetadataIsDefault(fields: map<string, Json>)
    requires Parse(JObj(fields)).Some?
    ensures var b := Load(Some(JObj(fields)));
      && ("titles" !in fields ==> b.titles == DefaultTitles())
      && ("states" !in fields ==> b.states == DefaultStates())
      && ("library_sources" !in fields ==> b.sources == DefaultSources())
  {
  }

  // ---------------------------------------------------------------------------------------
  // save_workflow
  // ---------------------------------------------------------------------------------------

  function EncodeColumns(b: Board): Json {
    JObj(map[
      FileKey(Rotation) := EncodeIds(b.rotation),
      FileKey(Deck) := EncodeIds(b.deck),
      FileKey(Fermenting) := EncodeIds(b.fermenting),
      FileKey(Finishing) := EncodeIds(b.finishing)])
  }

  /** Writes the four owned keys over an existing top-level object. */
  function Merge(base: map<string, Json>, b: Board): map<string, Json> {
    base["columns" := EncodeColumns(b)]
        ["titles" := EncodeTitles(b.titles)]
        ["states" := EncodeFlags(b.states)]
        ["library_sources" := EncodeFlags(b.sources)]
  }

  /** `save_workflow` as written: the current file is read first (absent or unparseable counts
      as `{}`), but when it parses to something other than an object the key assignments that
      follow raise, outside any `try`. `None` is that escaping exception. */
  function SaveAsWritten(file: Option<Json>, b: Board): (r: Option<Json>)
    ensures r.None? <==> file.Some? && !file.value.JObj?
    ensures r.Some? ==> r.value.JObj? && r.value.fields.Keys >= OwnedKeys()
    ensures r.Some? && file.Some? ==>
      && r.value.fields.Keys == file.value.fields.Keys + OwnedKeys()
      && forall k :: k in file.value.fields && k !in OwnedKeys() ==> r.value.fields[k] == file.value.fields[k]
  {
    match file
    case None => Some(JObj(Merge(map[], b)))
    case Some(data) =>
      if data.JObj? then Some(JObj(Merge(data.fields, b))) else None
  }

  /** `save_workflow` with a current file that is not an object treated like an unreadable one.
      The result is the new file content: an object holding every key of the old object, with
      the four owned keys rewritten and all others untouched. */
  function Save(file: Option<Json>, b: Board): (out: Json)
    ensures out.JObj?
    ensures file.Some? && file.value.JObj? ==>
      && out.fields.Keys == file.value.fields.Keys + OwnedKeys()
      && forall k :: k in file.value.fields && k !in OwnedKeys() ==> out.fields[k] == file.value.fields[k]
    ensures !(file.Some? && file.value.JObj?) ==> out.fields.Keys == OwnedKeys()
  {
    var base := if file.Some? && file.value.JObj? then file.value.fields else map[];
    JObj(Merge(base, b))
  }

  /** Save then load gives back the same four columns, titles, states and source settings, and
      this holds whatever the file held before. */
  lemma SaveLoadRoundTrip(file: Option<Json>, b: Board)
    ensures Load(Some(Save(file, b))) == b
  {
    var f := Save(file, b).fields;
    var cols := EncodeColumns(b).fields;
    IdsRoundTrip(b.rotation);
    IdsRoundTrip(b.deck);
    IdsRoundTrip(b.fermenting);
    IdsRoundTrip(b.finishing);
    TitlesRoundTrip(b.titles);
    FlagsRoundTrip(b.states);
    FlagsRoundTrip(b.sources);
    assert f["columns"] == EncodeColumns(b);
    assert ColumnFrom(cols, Rotation) == Some(b.rotation);
    assert ColumnFrom(cols, Deck) == Some(b.deck);
    assert ColumnFrom(cols, Fermenting) == Some(b.fermenting);
    assert ColumnFrom(cols, Finishing) == Some(b.finishing);
  }

  /** Saving the same board twice writes the same file as saving it once. */
  lemma SaveIdempotent(file: Option<Json>, b: Board)
    ensures Save(Some(Save(file, b)), b) == Save(file, b)
  {
  }

  /** The as-written save agrees with the corrected one wherever it returns, and fails exactly on
      a file that parses to a non-object; a file holding `[]` is one. */
  lemma SaveAsWrittenRaisesOnNonObject(file: Option<Json>, b: Board)
    ensures SaveAsWritten(file, b).None? <==> file.Some? && !file.value.JObj?
    ensures SaveAsWritten(file, b).Some? ==> SaveAsWritten(file, b).value == Save(file, b)
    ensures SaveAsWritten(Some(JArr([])), b).None? && Load(Some(JArr([]))) == Defaults()
  {
  }
}

=== FILE: str_order.dfy ===
/** Python's ordering of `str` values: lexicographic by code point, a proper prefix sorting first. */
module StrOrder {

  /** `a < b` on Python strings. */
  predicate Less(a: string, b: string)
    decreases |a|
  {
    if |a| == 0 then |b| > 0
    else if |b| == 0 then false
    else if a[0] != b[0] then a[0] < b[0]
    else Less(a[1..], b[1..])
  }

  /** `a <= b` on Python strings, expressed as "b is not smaller", which is how a sort uses `<`. */
  predicate LessEq(a: string, b: string) {
    !Less(b, a)
  }

  lemma {:induction false} LessIrreflexive(a: string)
    ensures !Less(a, a)
    decreases |a|
  {
    if |a| > 0 {
      LessIrreflexive(a[1..]);
    }
  }

  lemma {:induction false} LessAsymmetric(a: string, b: string)
    ensures Less(a, b) ==> !Less(b, a)
    decreases |a|
  {
    if |a| > 0 && |b| > 0 && a[0] == b[0] {
      LessAsymmetric(a[1..], b[1..]);
    }
  }

  /** Distinct strings are always comparable. */
  lemma {:induction false} LessTrichotomy(a: string, b: string)
    ensures a == b || Less(a, b) || Less(b, a)
    decreases |a|
  {
    if |a| > 0 && |b| > 0 && a[0] == b[0] {
      LessTrichotomy(a[1..], b[1..]);
      if a[1..] == b[1..] {
        assert a == [a[0]] + a[1..] && b == [b[0]] + b[1..];
      }
    }
  }

  lemma {:induction false} LessTransitive(a: string, b: string, c: string)
    requires Less(a, b) && Less(b, c)
    ensures Less(a, c)
    decreases |a|
  {
    if |a| > 0 && a[0] == b[0] && b[0] == c[0] {
      LessTransitive(a[1..], b[1..], c[1..]);
    }
  }

  /** `LessEq` is a total preorder, which is what a stable sort on a string key needs. */
  lemma LessEqTotal(a: string, b: string)
    ensures LessEq(a, b) || LessEq(b, a)
  {
    LessAsymmetric(a, b);
  }

  lemma LessEqTransitive(a: string, b: string, c: string)
    requires LessEq(a, b) && LessEq(b, c)
    ensures LessEq(a, c)
  {
    if Less(c, a) {
      LessTrichotomy(a, b);
      if a == b {
      } else if Less(a, b) {
        LessTransitive(c, a, b);
      }
    }
  }
}

=== FILE: workflow.dfy ===
/** The workflow board: four ordered columns of batch ids (rotation, deck, fermenting,
    finishing), their titles and collapsed flags, and the library source settings, with the
    positional operations the GUI calls on them. */
module Workflow {
  import opened Wrappers
  import Library

  datatype Column = Rotation | Deck | Fermenting | Finishing

  /** The name a column goes by in every operation. */
  function ColumnKey(c: Column): string {
    match c
    case Rotation => "rotation"
    case Deck => "deck"
    case Fermenting => "fermenting"
    case Finishing => "finishing"
  }

  /** `_get_list_by_name`: the four known names resolve to their column, anything else to
      nothing. */
  function ColumnNamed(name: string): (r: Option<Column>)
    ensures r.Some? ==> ColumnKey(r.value) == name
    ensures r.None? ==> forall c: Column :: ColumnKey(c) != name
  {
    if name == "rotation" then Some(Rotation)
    else if name == "deck" then Some(Deck)
    else if name == "fermenting" then Some(Fermenting)
    else if name == "finishing" then Some(Finishing)
    else None
  }

  /** The manager's state: `titles` is `column_titles`, `states` is `column_states` (true means
      collapsed), `sources` is `source_settings`. */
  datatype Board = Board(
    rotation: seq<string>,
    deck: seq<string>,
    fermenting: seq<string>,
    finishing: seq<string>,
    titles: map<string, string>,
    states: map<string, bool>,
    sources: map<string, bool>)

  function Get(b: Board, c: Column): seq<string> {
    match c
    case Rotation => b.rotation
    case Deck => b.deck
    case Fermenting => b.fermenting
    case Finishing => b.finishing
  }

  /** Replaces one column; the other three and all metadata stay as they are. */
  function SetColumn(b: Board, c: Column, s: seq<string>): (r: Board)
    ensures Get(r, c) == s
    ensures forall d :: d != c ==> Get(r, d) == Get(b, d)
    ensures SameMeta(r, b)
  {
    match c
    case Rotation => b.(rotation := s)
    case Deck => b.(deck := s)
    case Fermenting => b.(fermenting := s)
    case Finishing => b.(finishing := s)
  }

  predicate SameMeta(a: Board, b: Board) {
    a.titles == b.titles && a.states == b.states && a.sources == b.sources
  }

  predicate SameColumns(a: Board, b: Board) {
    forall c: Column :: Get(a, c) == Get(b, c)
  }

  /** Every batch id on the board, column by column. */
  function AllIds(b: Board): seq<string> {
    b.rotation + b.deck + b.fermenting + b.finishing
  }

  /** The board after an operation, and whether the operation called `save_workflow`. */
  datatype Step = Step(board: Board, saved: bool)

  // ---------------------------------------------------------------------------------------
  // Sequence helpers: list.index, list.remove, list.insert
  // ---------------------------------------------------------------------------------------

  /** The position of the first occurrence of `x` in `s`. */
  function FirstIndex(s: seq<string>, x: string): (i: nat)
    requires x in s
    ensures i < |s| && s[i] == x && x !in s[..i]
    decreases |s|
  {
    if s[0] == x then 0
    else
      var j := FirstIndex(s[1..], x);
      assert s[..j + 1] == [s[0]] + s[1..][..j];
      j + 1
  }

  /** `list.remove(x)`: drops the first occurrence only. */
  function RemoveFirst(s: seq<string>, x: string): (r: seq<string>)
    requires x in s
    ensures r == s[..FirstIndex(s, x)] + s[FirstIndex(s, x) + 1..]
    decreases |s|
  {
    if s[0] == x then s[1..]
    else
      var rest := RemoveFirst(s[1..], x);
      var j := FirstIndex(s[1..], x);
      assert FirstIndex(s, x) == j + 1;
      assert s[..j + 1] == [s[0]] + s[1..][..j];
      assert s[j + 2..] == s[1..][j + 1..];
      [s[0]] + rest
  }

  /** Removing an occurrence shortens the column by one and takes exactly one copy of `x`. */
  lemma RemoveFirstCounts(s: seq<string>, x: string)
    requires x in s
    ensures |RemoveFirst(s, x)| == |s| - 1
    ensures multiset(RemoveFirst(s, x)) + multiset{x} == multiset(s)
  {
    var i := FirstIndex(s, x);
    var a, c := s[..i], s[i + 1..];
    assert s == a + [x] + c;
    assert RemoveFirst(s, x) == a + c;
    assert multiset(s) == multiset(a) + multiset{x} + multiset(c);
    assert multiset(a + c) == multiset(a) + multiset(c);
  }

  /** `list.insert(i, x)` for an index already within bounds. */
  function InsertAt(s: seq<string>, i: nat, x: string): (r: seq<string>)
    requires i <= |s|
    ensures |r| == |s| + 1 && r[i] == x
    ensures r[..i] == s[..i] && r[i + 1..] == s[i..]
  {
    s[..i] + [x] + s[i..]
  }

  /** Inserting adds exactly one copy of `x`, and deleting it again gives the column back. */
  lemma InsertAtCounts(s: seq<string>, i: nat, x: string)
    requires i <= |s|
    ensures InsertAt(s, i, x)[..i] + InsertAt(s, i, x)[i + 1..] == s
    ensures multiset(InsertAt(s, i, x)) == multiset(s) + multiset{x}
  {
    assert s == s[..i] + s[i..];
    assert multiset(s) == multiset(s[..i]) + multiset(s[i..]);
  }

  /** The index clamping of `move_batch_drag`: below zero means the front, past the end means
      append. */
  function Clamp(i: int, n: nat): (r: nat)
    ensures r <= n
    ensures 0 <= i <= n ==> r == i
    ensures i < 0 ==> r == 0
    ensures i > n ==> r == n
  {
    if i < 0 then 0 else if i > n then n else i
  }

  // ---------------------------------------------------------------------------------------
  // Operations
  // ---------------------------------------------------------------------------------------

  /** `move_batch_drag`: take the first occurrence of `id` out of the source column, then put it
      into the destination column at the clamped index, measured after the removal. The
      returned `saved` flag is the method's boolean result. */
  function MoveBatchDrag(b: Board, id: string, src: string, dst: string, index: int): (r: Step)
    ensures r.saved <==>
      ColumnNamed(src).Some? && ColumnNamed(dst).Some? && id in Get(b, ColumnNamed(src).value)
    ensures !r.saved ==> r.board == b
    ensures r.saved ==> SameMeta(r.board, b)
    ensures r.saved ==>
      var s := ColumnNamed(src).value;
      var d := ColumnNamed(dst).value;
      var left := RemoveFirst(Get(b, s), id);
      var before := if s == d then left else Get(b, d);
      var k := Clamp(index, |before|);
      && k < |Get(r.board, d)|
      && Get(r.board, d)[k] == id
      && Get(r.board, d)[..k] + Get(r.board, d)[k + 1..] == before
      && (s != d ==> Get(r.board, s) == left)
      && (forall c :: c != s && c != d ==> Get(r.board, c) == Get(b, c))
  {
    if ColumnNamed(src).Some? && ColumnNamed(dst).Some? && id in Get(b, ColumnNamed(src).value) then
      RelocatePlaces(b, id, ColumnNamed(src).value, ColumnNamed(dst).value, index);
      Step(Relocate(b, id, ColumnNamed(src).value, ColumnNamed(dst).value, index), true)
    else
      Step(b, false)
  }

  /** The board after a move between two resolved columns. */
  function Relocate(b: Board, id: string, s: Column, d: Column, index: int): Board
    requires id in Get(b, s)
  {
    var b1 := SetColumn(b, s, RemoveFirst(Get(b, s), id));
    var dest := Get(b1, d);
    SetColumn(b1, d, InsertAt(dest, Clamp(index, |dest|), id))
  }

  lemma RelocatePlaces(b: Board, id: string, s: Column, d: Column, index: int)
    requires id in Get(b, s)
    ensures var r := Relocate(b, id, s, d, index);
      var left := RemoveFirst(Get(b, s), id);
      var before := if s == d then left else Get(b, d);
      var k := Clamp(index, |before|);
      && SameMeta(r, b)
      && k < |Get(r, d)|
      && Get(r, d)[k] == id
      && Get(r, d)[..k] + Get(r, d)[k + 1..] == before
      && (s != d ==> Get(r, s) == left)
      && (forall c :: c != s && c != d ==> Get(r, c) == Get(b, c))
  {
    var left := RemoveFirst(Get(b, s), id);
    var b1 := SetColumn(b, s, left);
    var dest := Get(b1, d);
    assert dest == if s == d then left else Get(b, d);
    InsertAtCounts(dest, Clamp(index, |dest|), id);
  }

  /** The position of the first record named `name` (`b.get('name') == name`); a record
      without a name never matches. */
  function FirstNamed(list: seq<Library.Beverage>, name: string): (r: Option<nat>)
    ensures r.Some? ==> r.value < |list| && list[r.value].name == Some(name)
    ensures r.Some? ==> forall j :: 0 <= j < r.value ==> list[j].name != Some(name)
    ensures r.None? ==> forall j :: 0 <= j < |list| ==> list[j].name != Some(name)
    decreases |list|
  {
    if |list| == 0 then None
    else if list[0].name == Some(name) then Some(0)
    else
      var rest := FirstNamed(list[1..], name);
      if rest.Some? then Some(rest.value + 1) else None
  }

  /** The id `add_batch` would place: that of the first record with the name, provided it is
      truthy (present and non-empty). */
  function FoundId(list: seq<Library.Beverage>, name: string): Option<string> {
    match FirstNamed(list, name)
    case Some(i) =>
      if list[i].id.Some? && list[i].id.value != "" then list[i].id else None
    case None => None
  }

  /** `add_batch`: prepend the found id to the named column. No match means nothing happens;
      an unknown column name changes nothing but still saves. */
  function AddBatch(b: Board, list: seq<Library.Beverage>, name: string, target: string): (r: Step)
    ensures r.saved <==> FoundId(list, name).Some?
    ensures SameMeta(r.board, b)
    ensures FoundId(list, name).Some? && ColumnNamed(target).Some? ==>
      var c := ColumnNamed(target).value;
      && Get(r.board, c) == [FoundId(list, name).value] + Get(b, c)
      && (forall d :: d != c ==> Get(r.board, d) == Get(b, d))
    ensures FoundId(list, name).None? || ColumnNamed(target).None? ==> r.board == b
  {
    match FoundId(list, name)
    case None => Step(b, false)
    case Some(id) =>
      match ColumnNamed(target)
      case Some(c) => Step(SetColumn(b, c, [id] + Get(b, c)), true)
      case None => Step(b, true)
  }

  /** `remove_batch`: remove the first occurrence of the id from the named column, if the column
      exists and holds it. */
  function RemoveBatch(b: Board, id: string, listName: string): (r: Step)
    ensures r.saved <==> ColumnNamed(listName).Some? && id in Get(b, ColumnNamed(listName).value)
    ensures !r.saved ==> r.board == b
    ensures r.saved ==>
      var c := ColumnNamed(listName).value;
      && Get(r.board, c) == RemoveFirst(Get(b, c), id)
      && SameMeta(r.board, b)
      && (forall d :: d != c ==> Get(r.board, d) == Get(b, d))
  {
    match ColumnNamed(listName)
    case Some(c) =>
      if id in Get(b, c) then Step(SetColumn(b, c, RemoveFirst(Get(b, c), id)), true)
      else Step(b, false)
    case None => Step(b, false)
  }

  /** `rename_column`: only a key already present in the titles map is updated. Any present key
      qualifies, not only the four column names, and the title is stored as given. */
  function RenameColumn(b: Board, key: string, title: string): (r: Step)
    ensures r.saved <==> key in b.titles
    ensures !r.saved ==> r.board == b
    ensures r.board.titles.Keys == b.titles.Keys
    ensures key in b.titles ==> r.board.titles[key] == title
    ensures forall k :: k in b.titles && k != key ==> r.board.titles[k] == b.titles[k]
    ensures SameColumns(r.board, b)
    ensures r.board.states == b.states && r.board.sources == b.sources
  {
    if key in b.titles then Step(b.(titles := b.titles[key := title]), true) else Step(b, false)
  }

  /** `set_column_state`: only a key already present in the states map is updated. */
  function SetColumnState(b: Board, key: string, collapsed: bool): (r: Step)
    ensures r.saved <==> key in b.states
    ensures !r.saved ==> r.board == b
    ensures r.board.states.Keys == b.states.Keys
    ensures key in b.states ==> r.board.states[key] == collapsed
    ensures forall k :: k in b.states && k != key ==> r.board.states[k] == b.states[k]
    ensures SameColumns(r.board, b)
    ensures r.board.titles == b.titles && r.board.sources == b.sources
  {
    if key in b.states then Step(b.(states := b.states[key := collapsed]), true) else Step(b, false)
  }

  // ---------------------------------------------------------------------------------------
  // Properties of moves
  // ---------------------------------------------------------------------------------------

  /** Replacing one column changes the board's ids by exactly what that column lost and gained. */
  lemma SetColumnIds(b: Board, c: Column, t: seq<string>)
    ensures multiset(AllIds(SetColumn(b, c, t))) + multiset(Get(b, c)) == multiset(AllIds(b)) + multiset(t)
  {
    var r := SetColumn(b, c, t);
    assert multiset(AllIds(r)) ==
      multiset(r.rotation) + multiset(r.deck) + multiset(r.fermenting) + multiset(r.finishing);
    assert multiset(AllIds(b)) ==
      multiset(b.rotation) + multiset(b.deck) + multiset(b.fermenting) + multiset(b.finishing);
  }

  lemma ShrinkColumnIds(b: Board, s: Column, left: seq<string>, id: string)
    requires multiset(left) + multiset{id} == multiset(Get(b, s))
    ensures multiset(AllIds(SetColumn(b, s, left))) + multiset{id} == multiset(AllIds(b))
  {
    SetColumnIds(b, s, left);
    MultisetCancel(multiset(AllIds(SetColumn(b, s, left))), multiset(AllIds(b)),
      multiset(left), multiset(Get(b, s)), id);
  }

  lemma MultisetCancel(after: multiset<string>, before: multiset<string>,
                       ml: multiset<string>, mc: multiset<string>, id: string)
    requires after + mc == before + ml
    requires ml + multiset{id} == mc
    ensures after + multiset{id} == before
  {
    forall x ensures (after + multiset{id})[x] == before[x] {
      assert (after + mc)[x] == (before + ml)[x];
      assert (ml + multiset{id})[x] == mc[x];
    }
  }

  lemma RemoveStepIds(b: Board, id: string, s: Column)
    requires id in Get(b, s)
    ensures multiset(AllIds(SetColumn(b, s, RemoveFirst(Get(b, s), id)))) + multiset{id} == multiset(AllIds(b))
  {
    RemoveFirstCounts(Get(b, s), id);
    ShrinkColumnIds(b, s, RemoveFirst(Get(b, s), id), id);
  }

  lemma InsertStepIds(b: Board, d: Column, k: nat, id: string)
    requires k <= |Get(b, d)|
    ensures multiset(AllIds(SetColumn(b, d, InsertAt(Get(b, d), k, id)))) == multiset(AllIds(b)) + multiset{id}
  {
    InsertAtCounts(Get(b, d), k, id);
    SetColumnIds(b, d, InsertAt(Get(b, d), k, id));
  }

  lemma RelocateKeepsIds(b: Board, id: string, s: Column, d: Column, index: int)
    requires id in Get(b, s)
    ensures multiset(AllIds(Relocate(b, id, s, d, index))) == multiset(AllIds(b))
  {
    var b1 := SetColumn(b, s, RemoveFirst(Get(b, s), id));
    RemoveStepIds(b, id, s);
    InsertStepIds(b1, d, Clamp(index, |Get(b1, d)|), id);
  }

  /** A successful move neither loses nor duplicates a batch: the multiset of ids over all four
      columns is unchanged. */
  lemma MoveKeepsBatches(b: Board, id: string, src: string, dst: string, index: int)
    ensures multiset(AllIds(MoveBatchDrag(b, id, src, dst, index).board)) == multiset(AllIds(b))
  {
    if ColumnNamed(src).Some? && ColumnNamed(dst).Some? && id in Get(b, ColumnNamed(src).value) {
      RelocateKeepsIds(b, id, ColumnNamed(src).value, ColumnNamed(dst).value, index);
    }
  }

  lemma RelocateWithinReorders(b: Board, id: string, c: Column, index: int)
    requires id in Get(b, c)
    ensures |Get(Relocate(b, id, c, c, index), c)| == |Get(b, c)|
    ensures multiset(Get(Relocate(b, id, c, c, index), c)) == multiset(Get(b, c))
  {
    var left := RemoveFirst(Get(b, c), id);
    var k := Clamp(index, |left|);
    RemoveFirstCounts(Get(b, c), id);
    InsertAtCounts(left, k, id);
    assert Get(Relocate(b, id, c, c, index), c) == InsertAt(left, k, id);
  }

  /** A move within one column is a pure reorder: same length, same ids. */
  lemma MoveWithinColumnReorders(b: Board, id: string, name: string, index: int)
    requires ColumnNamed(name).Some? && id in Get(b, ColumnNamed(name).value)
    ensures var c := ColumnNamed(name).value;
      var r := MoveBatchDrag(b, id, name, name, index).board;
      |Get(r, c)| == |Get(b, c)| && multiset(Get(r, c)) == multiset(Get(b, c))
  {
    RelocateWithinReorders(b, id, ColumnNamed(name).value, index);
  }

  /** Taking out an id that was just put in, into a column that lacked it, gives the column back. */
  lemma RemoveUndoesInsert(t: seq<string>, k: nat, id: string)
    requires k <= |t| && id !in t
    ensures RemoveFirst(InsertAt(t, k, id), id) == t
  {
    var u := InsertAt(t, k, id);
    assert u[..k] == t[..k];
    assert FirstIndex(u, id) == k;
  }

  /** Putting an id back where its first occurrence was gives the column back. */
  lemma InsertUndoesRemove(t: seq<string>, id: string)
    requires id in t
    ensures InsertAt(RemoveFirst(t, id), FirstIndex(t, id), id) == t
  {
    var i := FirstIndex(t, id);
    var left := RemoveFirst(t, id);
    assert left == t[..i] + t[i + 1..];
    assert left[..i] == t[..i];
    assert left[i..] == t[i + 1..];
    assert InsertAt(left, i, id) == left[..i] + [id] + left[i..];
    calc {
      InsertAt(left, i, id);
      left[..i] + [id] + left[i..];
      t[..i] + [id] + t[i + 1..];
      { assert t[i] == id; }
      t;
    }
  }

  lemma BoardEq(a: Board, b: Board)
    requires SameColumns(a, b) && SameMeta(a, b)
    ensures a == b
  {
    assert Get(a, Rotation) == Get(b, Rotation) && Get(a, Deck) == Get(b, Deck);
    assert Get(a, Fermenting) == Get(b, Fermenting) && Get(a, Finishing) == Get(b, Finishing);
  }

  lemma RelocateRoundTrip(b: Board, id: string, s: Column, d: Column, index: int)
    requires s != d && id in Get(b, s) && id !in Get(b, d)
    ensures id in Get(Relocate(b, id, s, d, index), d)
    ensures Relocate(Relocate(b, id, s, d, index), id, d, s, FirstIndex(Get(b, s), id)) == b
  {
    var mid := Relocate(b, id, s, d, index);
    var k := Clamp(index, |Get(b, d)|);
    assert Get(mid, d) == InsertAt(Get(b, d), k, id);
    assert Get(mid, s) == RemoveFirst(Get(b, s), id);
    var i := FirstIndex(Get(b, s), id);
    var back := Relocate(mid, id, d, s, i);
    RemoveUndoesInsert(Get(b, d), k, id);
    assert Get(back, d) == Get(b, d);
    InsertUndoesRemove(Get(b, s), id);
    assert Get(back, s) == Get(b, s);
    BoardEq(back, b);
  }

  /** Moving an id from one column to another and then back to the index it started at restores
      the board, provided the destination did not already hold that id. */
  lemma MoveRoundTrip(b: Board, id: string, src: string, dst: string, index: int)
    requires ColumnNamed(src).Some? && ColumnNamed(dst).Some?
    requires ColumnNamed(src) != ColumnNamed(dst)
    requires id in Get(b, ColumnNamed(src).value)
    requires id !in Get(b, ColumnNamed(dst).value)
    ensures var there := MoveBatchDrag(b, id, src, dst, index);
      var back := MoveBatchDrag(there.board, id, dst, src, FirstIndex(Get(b, ColumnNamed(src).value), id));
      there.saved && back.saved && back.board == b
  {
    RelocateRoundTrip(b, id, ColumnNamed(src).value, ColumnNamed(dst).value, index);
  }
}

=== FILE: wrappers.dfy ===
/** The optional-value datatype used for absent JSON keys, absent files and failed lookups. */
module Wrappers {

  datatype Option<+T> = None | Some(value: T) {

    /** Returns the value held in Some, or `default` when None (Python's `d.get(k, default)`). */
    function GetOr(default: T): T {
      match this
      case Some(v) => v
      case None() => default
    }
  }
}
